=== FILE: README.md ===
# TASVideos site core: YouTube sync helpers, paging, settings and trackable queries

A Dafny model of four small, pure parts of the TASVideos site:

- **YouTube synchronisation** (`YouTubeSync.cs`). The model covers recognising a YouTube URL and extracting its video id from a `youtu.be` short link or a `watch?v=` URL. It also covers the tags sent with a publication (system code, authors and search-key pieces, lower-cased and de-duplicated, after the fixed base tags) and the video title with its `[Obsoleted]` marker.
- **Paging** (`PageOf.cs`). The model covers the rows a paged query skips, the first and last row numbers of a page, and the number of the last page. It also covers the `PageOf`/`SystemPageOf` wrappers, which enumerate exactly the items they were built from.
- **Settings** (`AppSettings.cs`). The model covers when the IRC, Discord and Twitter integrations count as enabled. It also covers how the start-up strategy setting is resolved to a member of the `StartupStrategy` enum, falling back to `Minimal`.
- **Trackable queries** (`BaseEntity.cs`). The model covers the `CreatedBy` and `Since` filters and the `OldestToNewest` and `ByMostRecent` orderings over entities that record who created them and when.

Modules:

- `Wrappers` defines `Option`. It stands for nullable references and for operations that throw.
- `Text` models the .NET string primitives used:
  - `char.IsWhiteSpace` and `IsNullOrWhiteSpace`;
  - ordinal `IndexOf`/`Contains`;
  - `ToLower`;
  - `TrimEnd`.
- `Sequences` holds the LINQ operators `Where`, `Distinct` and `OrderBy`. Each has an independent characterisation:
  - the filter is the unique subsequence with the right multiplicities;
  - `Distinct` is streaming and first-occurrence;
  - the insertion sort is sorted, is a permutation of its input, and is the identity on sorted input.
- `YouTube`, `Paging`, `Settings` and `Trackable` follow the four source files.

Points where the code behaves in a way one might not expect:

- C#'s `int` arithmetic wraps silently. `Paging` therefore computes every row number with an explicit 32-bit wrap-around (`Wrap32`). For example, page 214748366 with a page size of 10 skips -2147483646 rows (`RowsToSkipWraps`).
- `GetRowsToSkip` treats pages below 1 as page 1, but `StartRow` does not. For such a page, `StartRow` is not one past the rows skipped (`StartRowAfterSkipped`).
- A page from 1 to `LastPage` is non-empty when its end row fits in an `int` (`ValidPageNonEmpty` requires `Fits`), but not always otherwise: page 2 with a page size of 2^30 over `int.MaxValue` rows reports a last row of `int.MinValue` (`PageEmptyWhenEndWraps`).
- When a URL has no `"v="`, `IndexOf` returns -1. The "id" is then the URL minus its first character (`VideoIdWithoutVParam`).
- A short link skips all query-string and anchor handling. Everything after the last `/` is returned (`VideoIdOfShortLink`).
- A current (not obsoleted) movie's title reads `"[TAS]  <title>"`, with two spaces. The marker sits right after `"[TAS] "` exactly when `ObsoletedBy` has a value (`TitleRoundTrip`). "The title contains `[Obsoleted]`" is not the same test, because a movie's own title may contain the marker (`MarkerFromOwnTitle`).
- The base tags keep their capitals and every video tag is lower case. So no base tag can duplicate a video tag, and the tag list sent has no duplicates (`SnippetTags`).

## Model

| member | source | states |
|---|---|---|
| Text.IsWhiteSpace | TASVideos.Core/Settings/AppSettings.cs:38-42 | `char.IsWhiteSpace`: exactly the Unicode White_Space characters (U+0009–U+000D, U+0020, U+0085, U+00A0, U+1680, U+2000–U+200A, U+2028, U+2029, U+202F, U+205F, U+3000) |
| Text.IsNullOrWhiteSpace | TASVideos.Core/Services/Youtube/YouTubeSync.cs:120 | `string.IsNullOrWhiteSpace` on a `string?`: null, or every character white space |
| Text.IsBlank | TASVideos.Core/Settings/AppSettings.cs:38-42 | `IsNullOrWhiteSpace` on a non-null string: every character is Unicode white space |
| Text.IndexOf | TASVideos.Core/Services/Youtube/YouTubeSync.cs:135 | -1 exactly when the pattern never occurs; otherwise a position where it occurs with no earlier occurrence |
| Text.Contains | TASVideos.Core/Services/Youtube/YouTubeSync.cs:120 | ordinal substring test, defined through `IndexOf` (characterised by `ContainsIff`) |
| Text.ContainsIff | TASVideos.Core/Services/Youtube/YouTubeSync.cs:120 | `Contains` holds exactly when the pattern occurs at some position |
| Text.UpTo | TASVideos.Core/Services/Youtube/YouTubeSync.cs:140-143 | a prefix without the character, followed in the input by that character or by nothing: the text before its first occurrence |
| Text.UpToFirst | TASVideos.Core/Services/Youtube/YouTubeSync.cs:140-143 | `UpTo` stops at the first occurrence and nowhere earlier |
| Text.TrimEnd | TASVideos.Core/Services/Youtube/YouTubeSync.cs:143 | the result is a prefix of the input, does not end in the trimmed character, and only that character was removed |
| Text.LowerChar | TASVideos.Core/Services/Youtube/YouTubeSync.cs:195 | `char.ToLower`: the result is never a capital, and a character that is not a capital is kept |
| Text.LowerAscii | TASVideos.Core/Services/Youtube/YouTubeSync.cs:195 | `ToLower` maps `A`–`Z` to `a`–`z`, each capital to its own small letter |
| Text.LowerLatin1 | TASVideos.Core/Services/Youtube/YouTubeSync.cs:195 | `ToLower` maps each Latin-1 capital `À`–`Þ` (except `×`) to its own small letter `à`–`þ` |
| Text.EqualsIgnoreCase | TASVideos.Core/Settings/AppSettings.cs:110 | the case-insensitive name comparison of `Enum.TryParse(..., true, ...)`: equal after lower-casing |
| Text.Lower | TASVideos.Core/Services/Youtube/YouTubeSync.cs:195 | same length, each character mapped by `char.ToLower` |
| Text.LowerIsLowerCase | TASVideos.Core/Services/Youtube/YouTubeSync.cs:195 | `ToLower` yields a string with no capital, and leaves a string unchanged exactly when it has none |
| Text.LowerIdempotent | TASVideos.Core/Services/Youtube/YouTubeSync.cs:195 | lower-casing twice is lower-casing once |
| YouTube.IsYoutubeUrl | TASVideos.Core/Services/Youtube/YouTubeSync.cs:118-121 | a non-null, non-blank URL containing `youtube.com` or `youtu.be` (consequences in `YoutubeUrlRecognition`) |
| YouTube.YoutubeUrlRecognition | TASVideos.Core/Services/Youtube/YouTubeSync.cs:118-121 | a null or blank URL is never a YouTube URL; every URL containing `https://youtu.be` is one |
| YouTube.AfterVParam | TASVideos.Core/Services/Youtube/YouTubeSync.cs:135 | the text after the first `v=`, with no earlier occurrence; without one, the URL minus its first character (the -1 + 2 edge) |
| YouTube.VideoId | TASVideos.Core/Services/Youtube/YouTubeSync.cs:123-147 | "" for a blank URL; for a short link, the last `/` piece, with no `v=` processing, and `None` exactly when the splitter yields nothing; a blank candidate is returned as is; otherwise the first `&` piece of the first `#` piece of the candidate with trailing `?` trimmed, and `None` exactly when either split yields nothing (where `[0]` throws); for a lawful splitter the id uses only the URL's characters and has no `#`, `&` or trailing `?` |
| YouTube.SplitOrdinal | TASVideos.Core/Services/Youtube/YouTubeSync.cs:132-143 | keep-empty splitting, the splitter the exact-id lemmas assume: always at least one piece |
| YouTube.SplitOrdinalIsLawful | TASVideos.Core/Services/Youtube/YouTubeSync.cs:132-143 | keep-empty splitting satisfies the law `VideoId` relies on, so the law is satisfiable |
| YouTube.VideoIdOfShortLink | TASVideos.Core/Services/Youtube/YouTubeSync.cs:130-133 | with keep-empty splitting, `https://youtu.be/<id>` yields `<id>` whole, query string and anchor included |
| YouTube.VideoIdOfWatchUrl | TASVideos.Core/Services/Youtube/YouTubeSync.cs:135-146 | with keep-empty splitting, a `v=<id>` value followed by nothing or by further `&` parameters yields `<id>` |
| YouTube.VideoIdOfAnyWatchUrl | TASVideos.Core/Services/Youtube/YouTubeSync.cs:135-146 | with keep-empty splitting, every watch URL yields the text after its first `v=`, cut before the first `#`, then before the first `&`, with trailing `?` removed |
| YouTube.FirstPiece | TASVideos.Core/Services/Youtube/YouTubeSync.cs:140-143 | the first keep-empty piece is the text before the first separator |
| YouTube.VideoIdWithoutVParam | TASVideos.Core/Services/Youtube/YouTubeSync.cs:135 | with keep-empty splitting, a URL without `v=`, `#` or `&` yields itself minus the first character, with trailing `?` trimmed |
| YouTube.LowerAll | TASVideos.Core/Services/Youtube/YouTubeSync.cs:195 | each string lower-cased, in place |
| YouTube.SearchKeyTags | TASVideos.Core/Services/Youtube/YouTubeSync.cs:190-193 | the `-` pieces of the search key when it is not null or blank, otherwise none |
| YouTube.RawTags | TASVideos.Core/Services/Youtube/YouTubeSync.cs:187-193 | the system code, then the authors, then the search-key pieces, before lower-casing and de-duplication |
| YouTube.Tags | TASVideos.Core/Services/Youtube/YouTubeSync.cs:183-197 | every tag is lower case, there are no duplicates, the lower-cased system code comes first, every author is present, search-key pieces are present exactly when the key is not blank, nothing else appears, and the tags are a subsequence of the lower-cased raw list |
| YouTube.TagsOfDistinctTags | TASVideos.Core/Services/Youtube/YouTubeSync.cs:195 | when the lower-cased tags are already distinct, the tags are exactly them, in order |
| YouTube.BaseTagsFacts | TASVideos.Core/Services/Youtube/YouTubeSync.cs:24 | the four base tags are pairwise distinct and none is lower case |
| YouTube.SnippetTags | TASVideos.Core/Services/Youtube/YouTubeSync.cs:78 | the base tags come first, in order, and the rest is exactly the video's tags, with no duplicates overall |
| YouTube.SnippetTagsMembership | TASVideos.Core/Services/Youtube/YouTubeSync.cs:78 | a tag is sent exactly when it is a base tag, the lower-cased system code, a lower-cased author or a lower-cased piece of a non-blank search key |
| YouTube.Title | TASVideos.Core/Services/Youtube/YouTubeSync.cs:75 | starts with `[TAS] `, ends with the video title, and is 11 characters longer when obsoleted |
| YouTube.TitleRoundTrip | TASVideos.Core/Services/Youtube/YouTubeSync.cs:75 | the sent title can be parsed back into the obsolete flag and the video title, so the marker is present exactly when `ObsoletedBy` has a value |
| YouTube.MarkerFromOwnTitle | TASVideos.Core/Services/Youtube/YouTubeSync.cs:75 | a current movie whose own title is `[Obsoleted]` still yields a title containing the marker |
| Paging.Wrap32 | TASVideos.Data/Paging/PageOf.cs:44-46 | C#'s unchecked `int` arithmetic: the result is an `int`, agrees with the exact value when that fits, and differs from it by a multiple of 2^32 |
| Paging.DefaultPagedModel | TASVideos.Data/Paging/PageOf.cs:40-47 | `new PagedModel()`: default paging and a row count of 0 |
| Paging.DefaultPagingModel | TASVideos.Data/Paging/PageOf.cs:55-58 | sort by `Id` ascending, page size 10, page 1 |
| Paging.RowsToSkip | TASVideos.Data/Paging/PageOf.cs:60 | 0 for pages at or below 1; `(page-1)*size` when that fits in an `int` |
| Paging.RowsToSkipNonNegative | TASVideos.Data/Paging/PageOf.cs:60 | never negative for a non-negative page size: 0 for every page at or below 1, and non-negative above 1 when the product does not overflow |
| Paging.RowsToSkipWraps | TASVideos.Data/Paging/PageOf.cs:60 | a large page number wraps the product to a negative skip |
| Paging.LastPage | TASVideos.Data/Paging/PageOf.cs:44 | the integer ceiling of rows over page size: `LastPage*size >= rows` and `(LastPage-1)*size < rows` |
| Paging.LastPageIsLeast | TASVideos.Data/Paging/PageOf.cs:44 | no smaller page count holds every row |
| Paging.StartRow | TASVideos.Data/Paging/PageOf.cs:45 | `(page-1)*size + 1` when that fits in an `int` |
| Paging.LastRow | TASVideos.Data/Paging/PageOf.cs:46 | `Math.Min`: at most the row count and at most the page's (wrapped) end row, and equal to one of them |
| Paging.StartRowAfterSkipped | TASVideos.Data/Paging/PageOf.cs:45-60 | `StartRow == GetRowsToSkip() + 1` exactly when the page is at least 1 or the page size is 0 |
| Paging.PageSpan | TASVideos.Data/Paging/PageOf.cs:45-46 | a page ends at or before the row count and spans at most a page size of rows |
| Paging.PageEmptyWhenEndWraps | TASVideos.Data/Paging/PageOf.cs:44-46 | page 2 of a 2^30-row page size over `int.MaxValue` rows is a valid page whose last row wraps to `int.MinValue`, below its start row |
| Paging.ValidPageNonEmpty | TASVideos.Data/Paging/PageOf.cs:44-46 | every page from 1 to `LastPage` has `StartRow <= LastRow <= RowCount` |
| Paging.DefaultPaging | TASVideos.Data/Paging/PageOf.cs:42-60 | a default model skips 0 rows, starts at row 1, ends at row 0 and has no pages |
| Paging.NewPageOf | TASVideos.Data/Paging/PageOf.cs:31-37 | a new page enumerates exactly the given items, with default paging |
| Paging.NewSystemPageOf | TASVideos.Data/Paging/PageOf.cs:12-24 | a new system page enumerates exactly the given items, with default paging and a null system code |
| Paging.Enumerate | TASVideos.Data/Paging/PageOf.cs:36 | a page enumerates its wrapped items in order |
| Paging.EnumerateSystem | TASVideos.Data/Paging/PageOf.cs:17 | a system page enumerates its wrapped items in order |
| Paging.EnumerateIgnoresPaging | TASVideos.Data/Paging/PageOf.cs:36-37 | changing the paging data never changes what a page enumerates |
| Settings.IrcEnabled | TASVideos.Core/Settings/AppSettings.cs:38-42 | server, channel, nick and password all non-blank and a positive port (consequences in `IrcNeedsEveryField`) |
| Settings.IrcSecureChannelEnabled | TASVideos.Core/Settings/AppSettings.cs:44 | IRC enabled and a non-blank secure channel |
| Settings.DiscordEnabled | TASVideos.Core/Settings/AppSettings.cs:53-54 | non-blank access token and public channel id |
| Settings.DiscordPrivateChannelEnabled | TASVideos.Core/Settings/AppSettings.cs:56-57 | Discord enabled and a non-blank private channel id |
| Settings.TwitterEnabled | TASVideos.Core/Settings/AppSettings.cs:68-72 | all five credentials non-blank (consequences in `TwitterNeedsEveryCredential`) |
| Settings.SecureChannelNeedsIrc | TASVideos.Core/Settings/AppSettings.cs:44 | the secure channel implies IRC is enabled; on an enabled connection it is on exactly when configured |
| Settings.IrcNeedsEveryField | TASVideos.Core/Settings/AppSettings.cs:38-42 | a blank server, channel, nick or password, or a port that is not positive, disables IRC |
| Settings.PrivateChannelNeedsDiscord | TASVideos.Core/Settings/AppSettings.cs:53-57 | the private channel implies Discord is enabled; the private channel id has no effect on whether Discord is enabled |
| Settings.TwitterNeedsEveryCredential | TASVideos.Core/Settings/AppSettings.cs:68-72 | any blank credential disables Twitter |
| Settings.DefaultsDisabled | TASVideos.Core/Settings/AppSettings.cs:29-72 | with default values, no integration or channel is enabled |
| Settings.FindMember | TASVideos.Core/Settings/AppSettings.cs:110 | the first enum member whose name equals the text ignoring case, or none |
| Settings.TryParseStrategy | TASVideos.Core/Settings/AppSettings.cs:110 | succeeds exactly when some member name matches ignoring case, and then yields such a member |
| Settings.GetStartupStrategy | TASVideos.Core/Settings/AppSettings.cs:105-119 | always an enum member; `Minimal` for a blank setting or one naming no member; for a non-blank setting that names a member ignoring case, a member matching it ignoring case |
| Settings.StrategyByName | TASVideos.Core/Settings/AppSettings.cs:105-119 | when names differ in more than case, every member is selected by its own name in any case |
| Settings.UsesImportStartStrategy | TASVideos.Core/Settings/AppSettings.cs:121-122 | the resolved strategy is `Import` (characterised by `UsesImportIff`) |
| Settings.UsesImportIff | TASVideos.Core/Settings/AppSettings.cs:121-122 | the import strategy is used exactly when the setting spells `Import` in some case |
| Settings.DefaultStrategyIsMinimal | TASVideos.Core/Settings/AppSettings.cs:105-122 | the default (empty) setting yields `Minimal` and not the import strategy |
| Sequences.Filter | TASVideos.Data/Entity/BaseEntity.cs:29 | `Where` keeps every satisfying element with its multiplicity and nothing else, in the original order |
| Sequences.FilterUnique | TASVideos.Data/Entity/BaseEntity.cs:29 | any subsequence with those multiplicities is the filter |
| Sequences.Distinct | TASVideos.Core/Services/Youtube/YouTubeSync.cs:195 | no duplicates, the same elements, a subsequence of the input |
| Sequences.DistinctSnoc | TASVideos.Core/Services/Youtube/YouTubeSync.cs:195 | an element is emitted exactly when it was not seen earlier, so first occurrences are kept in order |
| Sequences.DistinctOfUnique | TASVideos.Core/Services/Youtube/YouTubeSync.cs:195 | a duplicate-free sequence is its own `Distinct` |
| Sequences.SortByKey | TASVideos.Data/Entity/BaseEntity.cs:35 | `OrderBy` returns a permutation sorted by the key |
| Trackable.CreatedBy | TASVideos.Data/Entity/BaseEntity.cs:26-30 | keeps exactly the entities created by the user, in their original order |
| Trackable.Since | TASVideos.Data/Entity/BaseEntity.cs:44-48 | keeps exactly the entities created at or after the date, in their original order |
| Trackable.OldestToNewest | TASVideos.Data/Entity/BaseEntity.cs:32-36 | a permutation in non-decreasing creation order |
| Trackable.ByMostRecent | TASVideos.Data/Entity/BaseEntity.cs:38-42 | a permutation in non-increasing creation order |
| Trackable.CreatedByIsTheSelection | TASVideos.Data/Entity/BaseEntity.cs:26-30 | any order-preserving selection of exactly the user's entities is `CreatedBy` |
| Trackable.SinceIsTheSelection | TASVideos.Data/Entity/BaseEntity.cs:44-48 | any order-preserving selection of exactly the entities since the date is `Since` |
| Trackable.CreatedByIdempotent | TASVideos.Data/Entity/BaseEntity.cs:26-30 | filtering by the same user twice changes nothing |
| Trackable.SinceIdempotent | TASVideos.Data/Entity/BaseEntity.cs:44-48 | filtering by the same date twice changes nothing |
| Trackable.SinceSince | TASVideos.Data/Entity/BaseEntity.cs:44-48 | two date filters equal one filter by the later date |
| Trackable.CreatedBySinceCommute | TASVideos.Data/Entity/BaseEntity.cs:26-48 | the user and date filters commute |
| Trackable.OldestToNewestOfOrdered | TASVideos.Data/Entity/BaseEntity.cs:32-36 | a list already in creation order is returned unchanged, so the ordering is idempotent |
| Trackable.ByMostRecentOfOrdered | TASVideos.Data/Entity/BaseEntity.cs:38-42 | a list already newest-first is returned unchanged |

## Left out

- `SyncYouTubeVideo`, `UnlistVideo`, `HasAccessToChannel` and `SetAccessToken`: asynchronous HTTP calls and Google authentication. Only the pure values they send are modelled: video id, title and tags.
- The video description: it uses culture-invariant date formatting and `YoutubeHelper.RenderWikiForYoutube`, which is not part of this model. The `WikiPage` field of `YoutubeVideo` is therefore omitted.
- `SplitWithEmpty` from the extension library is not part of this model. It is a `Splitter` parameter. `VideoId`'s guarantees about the characters of the id assume only that pieces contain no separator and are made of the input's characters. The exact ids in `VideoIdOfShortLink`, `VideoIdOfWatchUrl`, `VideoIdOfAnyWatchUrl` and `VideoIdWithoutVParam` are proved on the assumption of keep-empty splitting (`SplitOrdinal`); with a splitter that drops empty entries, `https://youtu.be/` would yield `youtu.be` instead of "".
- Text.IndexOf: the source's `IndexOf("v=")` uses the current culture's comparison. It is modelled as ordinal. The two differ for culture-ignorable characters, and also when a combining mark or a zero-width joiner follows `v=`: a culture-sensitive match must end on a grapheme-cluster boundary, so for `watch?v=\u0301abc` the source finds no match and returns `atch?v=\u0301abc`, while the model returns `\u0301abc`.
- Text.LowerChar: `ToLower` is modelled for ASCII and Latin-1 capital letters only. Other scripts and culture-specific mappings (such as the Turkish dotted I) are not modelled. `EqualsIgnoreCase` uses the same mapping for `Enum.TryParse`'s case-insensitive match.
- Settings.TryParseStrategy: `Enum.TryParse` also accepts numeric strings, comma-separated flag lists and names with surrounding white space. Only exact names in any case are modelled. The `StartupStrategy` enum's definition is not part of this model, so its member names are a parameter that must include `Minimal` and `Import`.
- Paging.LastPage: requires a positive page size. With a page size of 0 the source divides by zero as a `double` and casts an infinite or NaN value to `int`, which C# leaves unspecified. A negative page size gives a defined result (`Math.Ceiling(10 / -3.0)` is -3), except that `int.MinValue` rows over -1 is out of range; negative page sizes are not modelled.
- YouTube.VideoId: the URL is a non-nullable `string`. The source also maps a null URL to "", but both of its callers (`SyncYouTubeVideo` and `UnlistVideo`) reach `VideoId` only after `IsYoutubeUrl` has rejected null.
- YouTube.AfterVParam: strings are sequences of Unicode scalar values, while C# strings are UTF-16 code units. For a URL without `v=` whose first character lies outside the Basic Multilingual Plane, C#'s `youtubeUrl[1..]` keeps a lone low surrogate, while the model drops the whole character. Positions from `IndexOf` likewise count characters, not code units.
- `YoutubeVideo.Tags`: a null author would make `ToLower` throw. Authors are modelled as non-null strings.
- `OrderBy`/`OrderByDescending`: the order among entities with equal timestamps is not specified, because database translation decides it. The model's insertion sort is one valid order. String equality collation and query translation are not modelled either. Queries are plain sequences and `DateTime` values are tick counts.
- `SortBy` and `SortDescending` are carried in `PagingModel` but not interpreted; nothing in `PageOf.cs` reads them.
- `AppSettings` fields with no behaviour (base URL, cache, connection strings, JWT, YouTube credentials, SendGrid, `UsePostgres`, sample-data password) are not modelled.
- The `Lsmv` movie-file parser exercised by `LsmvTests.cs` lives in `TASVideos.MovieParsers`, outside the four source files modelled here; its tests compare outcomes on embedded binary sample archives.
- `ApplicationDbContext.cs`, the genre migration and the `YoutubeGetResponse` DTO are schema and data shapes with no behaviour. `PublicationFlagImporter` is a database bulk insert.

=== FILE: paging.dfy ===
/** The paging arithmetic of TASVideos.Data/Paging/PageOf.cs. The source's
    properties are 32-bit `int`s in C#'s default unchecked context, so every
    computed value wraps modulo 2^32; `Wrap32` makes that explicit. */
module Paging {
  import opened Wrappers

  const TwoTo31: int := 0x8000_0000
  const TwoTo32: int := 0x1_0000_0000

  /** The range of C#'s `int`. */
  predicate InInt32(x: int) {
    -TwoTo31 <= x < TwoTo31
  }

  /** A value of C#'s `int`. */
  type Int32 = x: int | -TwoTo31 <= x < TwoTo31

  /** Two's-complement wrap-around of an unbounded result into `int`. */
  function Wrap32(x: int): (r: Int32)
    ensures InInt32(x) ==> r == x
    ensures (x - r) % TwoTo32 == 0
  {
    (x + TwoTo31) % TwoTo32 - TwoTo31
  }

  /** `PagingModel`: what a paged query asks for. */
  datatype PagingModel = PagingModel(
    sortBy: string,
    sortDescending: bool,
    pageSize: Int32,
    currentPage: Int32)

  /** `PagedModel`: a paging request together with the total row count. */
  datatype PagedModel = PagedModel(paging: PagingModel, rowCount: Int32)

  /** `SystemPagedModel`: a paged model filtered by a system; `SystemCode`
      has no initialiser, so it starts out null. */
  datatype SystemPagedModel = SystemPagedModel(paged: PagedModel, systemCode: Option<string>)

  /** `PageOf<T>`: a page of items with its paging data. */
  datatype PageOf<T> = PageOf(paged: PagedModel, items: seq<T>)

  /** `SystemPageOf<T>`. */
  datatype SystemPageOf<T> = SystemPageOf(paged: SystemPagedModel, items: seq<T>)

  /** The property initialisers of `PagingModel`. */
  function DefaultPagingModel(): (m: PagingModel)
    ensures m.sortBy == "Id" && !m.sortDescending
    ensures m.pageSize == 10 && m.currentPage == 1
  {
    PagingModel("Id", false, 10, 1)
  }

  /** A freshly constructed `PagedModel`: defaults and no rows. */
  function DefaultPagedModel(): (m: PagedModel)
    ensures m.paging == DefaultPagingModel() && m.rowCount == 0
  {
    PagedModel(DefaultPagingModel(), 0)
  }

  /** `GetRowsToSkip()`: pages below 1 are read as page 1. */
  function RowsToSkip(m: PagingModel): (r: Int32)
    ensures m.currentPage <= 1 ==> r == 0
    ensures m.currentPage >= 1 && InInt32((m.currentPage - 1) * m.pageSize)
            ==> r == (m.currentPage - 1) * m.pageSize
  {
    Wrap32(((if m.currentPage < 1 then 1 else m.currentPage) - 1) * m.pageSize)
  }

  /** Rows skipped are never negative for a non-negative page size, as long
      as the product for a page above 1 fits in an `int`. */
  lemma RowsToSkipNonNegative(m: PagingModel)
    requires m.pageSize >= 0
    requires m.currentPage <= 1 || InInt32((m.currentPage - 1) * m.pageSize)
    ensures RowsToSkip(m) >= 0
  {
    if m.currentPage > 1 {
      MulNonNegative(m.currentPage - 1, m.pageSize);
    }
  }

  lemma {:induction false} MulNonNegative(a: nat, b: nat)
    ensures a * b >= 0
    decreases a
  {
    if a > 0 {
      MulNonNegative(a - 1, b);
      assert a * b == (a - 1) * b + b;
    }
  }

  /** Multiplying by a non-negative factor preserves order. */
  lemma MulMonotone(a: int, b: int, c: nat)
    requires a <= b
    ensures a * c <= b * c
  {
    MulNonNegative(b - a, c);
    assert b * c - a * c == (b - a) * c;
  }

  /** A large page number makes the unchecked multiplication wrap, and the
      rows to skip come out negative. */
  lemma RowsToSkipWraps()
    ensures RowsToSkip(PagingModel("Id", false, 10, 214748366)) == -2147483646
  {
  }

  /** Integer ceiling of `a / b` for a positive `b`. */
  function CeilDiv(a: int, b: int): (q: int)
    requires b > 0
    ensures q * b >= a
    ensures (q - 1) * b < a
  {
    var f := (-a) / b;
    assert -a == f * b + (-a) % b;
    -f
  }

  /** `LastPage`: `(int)Math.Ceiling(RowCount / (double)PageSize)`; for `int`
      operands the double quotient is never rounded onto an integer, so this
      is the exact integer ceiling. */
  function LastPage(m: PagedModel): (r: Int32)
    requires m.paging.pageSize > 0
    ensures r * m.paging.pageSize >= m.rowCount
    ensures (r - 1) * m.paging.pageSize < m.rowCount
  {
    var q := CeilDiv(m.rowCount, m.paging.pageSize);
    LastPageInRange(m.rowCount, m.paging.pageSize, q);
    q
  }

  lemma LastPageInRange(a: Int32, b: int, q: int)
    requires b > 0 && q * b >= a && (q - 1) * b < a
    ensures InInt32(q)
  {
    assert -TwoTo31 <= a < TwoTo31;
    if q > 0 {
      MulMonotone(1, b, q - 1);
      assert q - 1 <= (q - 1) * b;
    } else if q < 0 {
      MulMonotone(1, b, -q);
      assert -q <= b * -q == -(q * b);
    }
  }

  /** `LastPage` is the fewest pages that hold every row. */
  lemma LastPageIsLeast(m: PagedModel, pages: int)
    requires m.paging.pageSize > 0
    requires pages * m.paging.pageSize >= m.rowCount
    ensures LastPage(m) <= pages
  {
    var q := LastPage(m);
    if pages < q {
      MulMonotone(pages, q - 1, m.paging.pageSize);
    }
  }

  /** `StartRow`: the 1-based number of the page's first row. Unlike
      `GetRowsToSkip`, it does not clamp pages below 1. */
  function StartRow(m: PagedModel): (r: Int32)
    ensures InInt32((m.paging.currentPage - 1) * m.paging.pageSize + 1)
            ==> r == (m.paging.currentPage - 1) * m.paging.pageSize + 1
  {
    Wrap32((m.paging.currentPage - 1) * m.paging.pageSize + 1)
  }

  /** `LastRow`: the page's last row, cut at the row count. */
  function LastRow(m: PagedModel): (r: Int32)
    ensures r <= m.rowCount
    ensures r <= Wrap32(StartRow(m) + m.paging.pageSize - 1)
    ensures r == m.rowCount || r == Wrap32(StartRow(m) + m.paging.pageSize - 1)
  {
    var end := Wrap32(StartRow(m) + m.paging.pageSize - 1);
    if m.rowCount < end then m.rowCount else end
  }

  /** No computed row number of `m` wraps around. */
  predicate Fits(m: PagedModel) {
    var skipped := (m.paging.currentPage - 1) * m.paging.pageSize;
    InInt32(skipped) && InInt32(skipped + 1) && InInt32(skipped + m.paging.pageSize)
  }

  /** `StartRow` is one past the rows skipped exactly when the page number
      is at least 1 (or rows are empty-sized): a page below 1 skips nothing
      yet reports a start row at or below zero. */
  lemma StartRowAfterSkipped(m: PagedModel)
    requires Fits(m)
    ensures StartRow(m) == RowsToSkip(m.paging) + 1
            <==> m.paging.currentPage >= 1 || m.paging.pageSize == 0
  {
    var c, s := m.paging.currentPage, m.paging.pageSize;
    if c < 1 && s != 0 {
      assert (c - 1) * s != 0;
    }
  }

  /** A page never reaches past the row count nor holds more than a page
      size of rows. */
  lemma PageSpan(m: PagedModel)
    requires Fits(m)
    ensures LastRow(m) <= m.rowCount
    ensures LastRow(m) - StartRow(m) + 1 <= m.paging.pageSize
  {
    var skipped := (m.paging.currentPage - 1) * m.paging.pageSize;
    assert StartRow(m) + m.paging.pageSize - 1 == skipped + m.paging.pageSize;
  }

  /** Every page from 1 to `LastPage` is non-empty. */
  lemma ValidPageNonEmpty(m: PagedModel)
    requires m.paging.pageSize > 0
    requires 1 <= m.paging.currentPage <= LastPage(m)
    requires Fits(m)
    ensures StartRow(m) <= LastRow(m) <= m.rowCount
  {
    var c, s := m.paging.currentPage, m.paging.pageSize;
    var q := LastPage(m);
    MulMonotone(c - 1, q - 1, s);
    assert StartRow(m) + s - 1 == (c - 1) * s + s;
  }

  /** Without `Fits` a valid page can be empty: when the end row wraps,
      page 2 of two reports a last row below its start row. */
  lemma PageEmptyWhenEndWraps()
    ensures var m := PagedModel(PagingModel("Id", false, 0x4000_0000, 2), 0x7FFF_FFFF);
      && LastPage(m) == 2
      && StartRow(m) == 0x4000_0001
      && LastRow(m) == -0x8000_0000
      && LastRow(m) < StartRow(m)
  {
  }

  /** A default model skips nothing, starts at row 1 and, having no rows,
      has no pages. */
  lemma DefaultPaging()
    ensures RowsToSkip(DefaultPagingModel()) == 0
    ensures StartRow(DefaultPagedModel()) == 1
    ensures LastRow(DefaultPagedModel()) == 0
    ensures LastPage(DefaultPagedModel()) == 0
  {
  }

  /** `new PageOf<T>(items)`: default paging over the given items. */
  function NewPageOf<T>(items: seq<T>): (p: PageOf<T>)
    ensures Enumerate(p) == items
    ensures p.paged == DefaultPagedModel()
  {
    PageOf(DefaultPagedModel(), items)
  }

  /** `new SystemPageOf<T>(items)`: default paging, no system yet. */
  function NewSystemPageOf<T>(items: seq<T>): (p: SystemPageOf<T>)
    ensures EnumerateSystem(p) == items
    ensures p.paged.paged == DefaultPagedModel() && p.paged.systemCode.None?
  {
    SystemPageOf(SystemPagedModel(DefaultPagedModel(), None), items)
  }

  /** `GetEnumerator()` of `PageOf<T>`: the wrapped items. */
  function Enumerate<T>(p: PageOf<T>): seq<T> {
    p.items
  }

  /** `GetEnumerator()` of `SystemPageOf<T>`. */
  function EnumerateSystem<T>(p: SystemPageOf<T>): seq<T> {
    p.items
  }

  /** Changing the paging data of a page never changes what it enumerates. */
  lemma EnumerateIgnoresPaging<T>(p: PageOf<T>, m: PagedModel)
    ensures Enumerate(p.(paged := m)) == Enumerate(p)
  {
  }
}

=== FILE: sequences.dfy ===
/** Order-preserving filtering, first-occurrence de-duplication and sorting by
    a key over sequences: the LINQ `Where`, `Distinct` and `OrderBy` the
    core applies, each with an independent characterisation. */
module Sequences {

  /** `a` is `b` with some elements left out, the rest in their original order. */
  predicate IsSubsequence<T(==)>(a: seq<T>, b: seq<T>)
    decreases |b|
  {
    || |a| == 0
    || (|b| > 0 && ((a[0] == b[0] && IsSubsequence(a[1..], b[1..])) || IsSubsequence(a, b[1..])))
  }

  lemma {:induction false} SubsequenceMultiset<T>(a: seq<T>, b: seq<T>)
    requires IsSubsequence(a, b)
    ensures multiset(a) <= multiset(b)
    decreases |b|
  {
    if |a| == 0 {
    } else if a[0] == b[0] && IsSubsequence(a[1..], b[1..]) {
      SubsequenceMultiset(a[1..], b[1..]);
      assert a == [a[0]] + a[1..];
      assert b == [b[0]] + b[1..];
    } else {
      SubsequenceMultiset(a, b[1..]);
      assert b == [b[0]] + b[1..];
    }
  }

  /** LINQ `Where`: the elements of `s` satisfying `p`, in order. */
  function Filter<T(==,!new)>(s: seq<T>, p: T -> bool): (r: seq<T>)
    ensures IsSubsequence(r, s)
    ensures forall i :: 0 <= i < |r| ==> p(r[i])
    ensures forall x :: multiset(r)[x] == if p(x) then multiset(s)[x] else 0
    decreases |s|
  {
    if |s| == 0 then []
    else
      var rest := Filter(s[1..], p);
      assert s == [s[0]] + s[1..];
      if p(s[0]) then [s[0]] + rest else rest
  }

  /** The filter is the only subsequence that keeps every element
      satisfying `p`, with its multiplicity, and nothing else. */
  lemma {:induction false} FilterUnique<T(!new)>(s: seq<T>, p: T -> bool, r: seq<T>)
    requires IsSubsequence(r, s)
    requires forall x :: multiset(r)[x] == if p(x) then multiset(s)[x] else 0
    ensures r == Filter(s, p)
    decreases |s|
  {
    if |s| == 0 {
    } else {
      var h, t := s[0], s[1..];
      assert s == [h] + t;
      if p(h) {
        if r != [] && r[0] == h && IsSubsequence(r[1..], t) {
          assert r == [h] + r[1..];
          forall x ensures multiset(r[1..])[x] == if p(x) then multiset(t)[x] else 0 {
            assert multiset(r)[x] == multiset(r[1..])[x] + (if x == h then 1 else 0);
          }
          FilterUnique(t, p, r[1..]);
        } else {
          assert IsSubsequence(r, t);
          SubsequenceMultiset(r, t);
          assert false;
        }
      } else {
        assert multiset(r)[h] == 0;
        if r != [] && r[0] == h {
          assert false;
        }
        assert IsSubsequence(r, t);
        forall x ensures multiset(r)[x] == if p(x) then multiset(t)[x] else 0 {
          assert multiset(s)[x] == multiset(t)[x] + (if x == h then 1 else 0);
        }
        FilterUnique(t, p, r);
      }
    }
  }

  /** Filtering by `p` and then by `q` is filtering once by their
      conjunction `both`. */
  lemma {:induction false} FilterFilter<T(!new)>(s: seq<T>, p: T -> bool, q: T -> bool, both: T -> bool)
    requires forall x :: both(x) == (p(x) && q(x))
    ensures Filter(Filter(s, p), q) == Filter(s, both)
    decreases |s|
  {
    if |s| > 0 {
      FilterFilter(s[1..], p, q, both);
      var rest := Filter(s[1..], p);
      if p(s[0]) {
        assert ([s[0]] + rest)[1..] == rest;
      }
    }
  }

  /** Filtering is idempotent. */
  lemma FilterIdempotent<T(!new)>(s: seq<T>, p: T -> bool)
    ensures Filter(Filter(s, p), p) == Filter(s, p)
  {
    FilterFilter(s, p, p, p);
  }

  /** No element occurs twice. */
  predicate NoDuplicates<T(==)>(s: seq<T>) {
    forall i, j :: 0 <= i < j < |s| ==> s[i] != s[j]
  }

  /** The elements of `s` not in `seen`, each at its first occurrence. */
  function DistinctExcept<T(==,!new)>(s: seq<T>, seen: set<T>): (r: seq<T>)
    ensures NoDuplicates(r)
    ensures forall x :: x in r <==> x in s && x !in seen
    ensures IsSubsequence(r, s)
    decreases |s|
  {
    if |s| == 0 then []
    else if s[0] in seen then
      var rest := DistinctExcept(s[1..], seen);
      assert IsSubsequence(rest, s[1..]);
      rest
    else
      var rest := DistinctExcept(s[1..], seen + {s[0]});
      assert s[0] !in rest;
      assert ([s[0]] + rest)[1..] == rest;
      [s[0]] + rest
  }

  /** LINQ `Distinct`: every element once, at its first occurrence. */
  function Distinct<T(==,!new)>(s: seq<T>): (r: seq<T>)
    ensures NoDuplicates(r)
    ensures forall x :: x in r <==> x in s
    ensures IsSubsequence(r, s)
  {
    DistinctExcept(s, {})
  }

  lemma DistinctExceptSkip<T(!new)>(s: seq<T>, seen: set<T>)
    requires |s| > 0 && s[0] in seen
    ensures DistinctExcept(s, seen) == DistinctExcept(s[1..], seen)
  {
  }

  lemma DistinctExceptKeep<T(!new)>(s: seq<T>, seen: set<T>)
    requires |s| > 0 && s[0] !in seen
    ensures DistinctExcept(s, seen) == [s[0]] + DistinctExcept(s[1..], seen + {s[0]})
  {
  }

  lemma DistinctExceptSnoc<T(!new)>(s: seq<T>, seen: set<T>, x: T)
    ensures DistinctExcept(s + [x], seen)
         == if x in s || x in seen then DistinctExcept(s, seen) else DistinctExcept(s, seen) + [x]
  {
    if x in s || x in seen {
      SnocSeen(s, seen, x);
    } else {
      SnocNew(s, seen, x);
    }
  }

  /** Appending an element already seen adds nothing. */
  lemma {:induction false} SnocSeen<T(!new)>(s: seq<T>, seen: set<T>, x: T)
    requires x in s || x in seen
    ensures DistinctExcept(s + [x], seen) == DistinctExcept(s, seen)
    decreases |s|
  {
    if |s| == 0 {
      assert [x][1..] == [];
    } else {
      var sx := s + [x];
      assert sx[0] == s[0] && sx[1..] == s[1..] + [x];
      assert s == [s[0]] + s[1..];
      if s[0] in seen {
        DistinctExceptSkip(s, seen);
        DistinctExceptSkip(sx, seen);
        SnocSeen(s[1..], seen, x);
      } else {
        DistinctExceptKeep(s, seen);
        DistinctExceptKeep(sx, seen);
        SnocSeen(s[1..], seen + {s[0]}, x);
      }
    }
  }

  /** Appending a new element emits it last. */
  lemma {:induction false} SnocNew<T(!new)>(s: seq<T>, seen: set<T>, x: T)
    requires x !in s && x !in seen
    ensures DistinctExcept(s + [x], seen) == DistinctExcept(s, seen) + [x]
    decreases |s|
  {
    if |s| == 0 {
      assert [x][1..] == [];
    } else {
      var sx := s + [x];
      assert sx[0] == s[0] && sx[1..] == s[1..] + [x];
      assert x != s[0] && x !in s[1..];
      if s[0] in seen {
        DistinctExceptSkip(s, seen);
        DistinctExceptSkip(sx, seen);
        SnocNew(s[1..], seen, x);
      } else {
        DistinctExceptKeep(s, seen);
        DistinctExceptKeep(sx, seen);
        SnocNew(s[1..], seen + {s[0]}, x);
        var rest := DistinctExcept(s[1..], seen + {s[0]});
        assert [s[0]] + (rest + [x]) == [s[0]] + rest + [x];
      }
    }
  }

  /** `Distinct` streams: an element is emitted exactly when it was not seen
      earlier, so the output keeps each element's first occurrence in order. */
  lemma DistinctSnoc<T(!new)>(s: seq<T>, x: T)
    ensures Distinct(s + [x]) == if x in s then Distinct(s) else Distinct(s) + [x]
  {
    DistinctExceptSnoc(s, {}, x);
  }

  lemma {:induction false} DistinctExceptOfUnique<T(!new)>(s: seq<T>, seen: set<T>)
    requires NoDuplicates(s)
    requires forall i :: 0 <= i < |s| ==> s[i] !in seen
    ensures DistinctExcept(s, seen) == s
    decreases |s|
  {
    if |s| > 0 {
      DistinctExceptOfUnique(s[1..], seen + {s[0]});
      assert s == [s[0]] + s[1..];
    }
  }

  /** A sequence without duplicates is its own `Distinct`; hence `Distinct`
      is idempotent. */
  lemma DistinctOfUnique<T(!new)>(s: seq<T>)
    requires NoDuplicates(s)
    ensures Distinct(s) == s
  {
    DistinctExceptOfUnique(s, {});
  }

  /** Non-decreasing by `key`. */
  predicate SortedByKey<T>(s: seq<T>, key: T -> int) {
    forall i, j :: 0 <= i < j < |s| ==> key(s[i]) <= key(s[j])
  }

  /** Inserts `x` before the first element whose key is not smaller. */
  function InsertByKey<T(==)>(x: T, s: seq<T>, key: T -> int): (r: seq<T>)
    requires SortedByKey(s, key)
    ensures SortedByKey(r, key)
    ensures multiset(r) == multiset(s) + multiset{x}
    ensures |r| > 0 && (key(r[0]) == key(x) || (|s| > 0 && r[0] == s[0]))
    decreases |s|
  {
    if |s| == 0 || key(x) <= key(s[0]) then
      SortedCons(x, s, key);
      [x] + s
    else
      var rest := InsertByKey(x, s[1..], key);
      assert s == [s[0]] + s[1..];
      assert |s| > 1 ==> key(s[0]) <= key(s[1]);
      SortedCons(s[0], rest, key);
      [s[0]] + rest
  }

  /** A sorted sequence stays sorted under a head no larger than its first
      element. */
  lemma SortedCons<T>(h: T, t: seq<T>, key: T -> int)
    requires SortedByKey(t, key) && (|t| == 0 || key(h) <= key(t[0]))
    ensures SortedByKey([h] + t, key)
  {
    var s := [h] + t;
    forall i, j | 0 <= i < j < |s| ensures key(s[i]) <= key(s[j]) {
      if i > 0 {
        assert s[i] == t[i - 1] && s[j] == t[j - 1];
      } else {
        assert s[j] == t[j - 1];
      }
    }
  }

  /** LINQ `OrderBy(key)`: an insertion sort. */
  function SortByKey<T(==)>(s: seq<T>, key: T -> int): (r: seq<T>)
    ensures SortedByKey(r, key)
    ensures multiset(r) == multiset(s)
    decreases |s|
  {
    if |s| == 0 then []
    else
      assert s == [s[0]] + s[1..];
      InsertByKey(s[0], SortByKey(s[1..], key), key)
  }

  /** Sorting a sorted sequence changes nothing, so sorting is idempotent. */
  lemma {:induction false} SortSortedIsIdentity<T>(s: seq<T>, key: T -> int)
    requires SortedByKey(s, key)
    ensures SortByKey(s, key) == s
    decreases |s|
  {
    if |s| > 0 {
      SortSortedIsIdentity(s[1..], key);
      assert s == [s[0]] + s[1..];
    }
  }
}

=== FILE: settings.dfy ===
/** The "is enabled" rules of the integration settings and the start-up
    strategy lookup (TASVideos.Core/Settings/AppSettings.cs). */
module Settings {
  import opened Wrappers
  import opened Text

  /** `AppSettings.IrcConnection`. */
  datatype IrcConnection = IrcConnection(
    server: string,
    channel: string,
    secureChannel: string,
    port: int,
    nick: string,
    password: string)

  /** `AppSettings.DiscordConnection`. */
  datatype DiscordConnection = DiscordConnection(
    accessToken: string,
    publicChannelId: string,
    privateChannelId: string)

  /** `AppSettings.TwitterConnection`. */
  datatype TwitterConnection = TwitterConnection(
    apiBase: string,
    consumerKey: string,
    consumerSecret: string,
    accessToken: string,
    tokenSecret: string)

  /** The parts of `AppSettings` that carry behaviour. */
  datatype AppSettings = AppSettings(
    irc: IrcConnection,
    discord: DiscordConnection,
    twitter: TwitterConnection,
    startupStrategy: string)

  /** Every string property starts as "" and the port as 0. */
  const DefaultIrc := IrcConnection("", "", "", 0, "", "")
  const DefaultDiscord := DiscordConnection("", "", "")
  const DefaultTwitter := TwitterConnection("", "", "", "", "")
  const DefaultSettings := AppSettings(DefaultIrc, DefaultDiscord, DefaultTwitter, "")

  /** `IrcConnection.IsEnabled()`. */
  predicate IrcEnabled(c: IrcConnection) {
    && !IsBlank(c.server)
    && !IsBlank(c.channel)
    && c.port > 0
    && !IsBlank(c.nick)
    && !IsBlank(c.password)
  }

  /** `IrcConnection.IsSecureChannelEnabled()`. */
  predicate IrcSecureChannelEnabled(c: IrcConnection) {
    IrcEnabled(c) && !IsBlank(c.secureChannel)
  }

  /** `DiscordConnection.IsEnabled()`. */
  predicate DiscordEnabled(c: DiscordConnection) {
    !IsBlank(c.accessToken) && !IsBlank(c.publicChannelId)
  }

  /** `DiscordConnection.IsPrivateChannelEnabled()`. */
  predicate DiscordPrivateChannelEnabled(c: DiscordConnection) {
    DiscordEnabled(c) && !IsBlank(c.privateChannelId)
  }

  /** `TwitterConnection.IsEnabled()`. */
  predicate TwitterEnabled(c: TwitterConnection) {
    && !IsBlank(c.apiBase)
    && !IsBlank(c.consumerKey)
    && !IsBlank(c.consumerSecret)
    && !IsBlank(c.accessToken)
    && !IsBlank(c.tokenSecret)
  }

  /** The secure channel is only ever used on an enabled connection, and
      it is used exactly when one is configured there. */
  lemma SecureChannelNeedsIrc(c: IrcConnection)
    ensures IrcSecureChannelEnabled(c) ==> IrcEnabled(c)
    ensures IrcEnabled(c) ==> (IrcSecureChannelEnabled(c) <==> !IsBlank(c.secureChannel))
  {
  }

  /** The IRC connection is off whenever any one required field is missing. */
  lemma IrcNeedsEveryField(c: IrcConnection)
    ensures (|| IsBlank(c.server) || IsBlank(c.channel) || c.port <= 0
             || IsBlank(c.nick) || IsBlank(c.password)) ==> !IrcEnabled(c)
  {
  }

  /** The private channel is only used on an enabled connection, and the
      private channel id has no say in whether Discord is enabled. */
  lemma PrivateChannelNeedsDiscord(c: DiscordConnection, id: string)
    ensures DiscordPrivateChannelEnabled(c) ==> DiscordEnabled(c)
    ensures DiscordEnabled(c.(privateChannelId := id)) == DiscordEnabled(c)
  {
  }

  /** A blank credential disables Twitter. */
  lemma TwitterNeedsEveryCredential(c: TwitterConnection)
    ensures (|| IsBlank(c.apiBase) || IsBlank(c.consumerKey) || IsBlank(c.consumerSecret)
             || IsBlank(c.accessToken) || IsBlank(c.tokenSecret)) ==> !TwitterEnabled(c)
  {
  }

  /** Nothing is enabled in default settings. */
  lemma DefaultsDisabled()
    ensures !IrcEnabled(DefaultSettings.irc) && !IrcSecureChannelEnabled(DefaultSettings.irc)
    ensures !DiscordEnabled(DefaultSettings.discord) && !DiscordPrivateChannelEnabled(DefaultSettings.discord)
    ensures !TwitterEnabled(DefaultSettings.twitter)
  {
  }

  /** A value of the `StartupStrategy` enum, by its declared name. */
  datatype StartupStrategy = StartupStrategy(name: string)

  const Minimal := StartupStrategy("Minimal")
  const Import := StartupStrategy("Import")

  /** The declared member names of the enum: it has at least `Minimal` and
      `Import`. */
  predicate IsStrategyEnum(members: seq<string>) {
    Minimal.name in members && Import.name in members
  }

  /** The position of the first member whose name equals `s` ignoring case. */
  function FindMember(members: seq<string>, s: string): (r: Option<nat>)
    ensures r.Some? ==> r.value < |members| && EqualsIgnoreCase(members[r.value], s)
    ensures r.Some? ==> forall i :: 0 <= i < r.value ==> !EqualsIgnoreCase(members[i], s)
    ensures r.None? ==> forall i :: 0 <= i < |members| ==> !EqualsIgnoreCase(members[i], s)
  {
    if |members| == 0 then None
    else if EqualsIgnoreCase(members[0], s) then Some(0)
    else match FindMember(members[1..], s)
      case None => None
      case Some(i) => Some(i + 1)
  }

  /** `Enum.TryParse(typeof(StartupStrategy), s, ignoreCase: true, …)` on a
      member name. */
  function TryParseStrategy(members: seq<string>, s: string): (r: Option<StartupStrategy>)
    ensures r.Some? <==> exists i :: 0 <= i < |members| && EqualsIgnoreCase(members[i], s)
    ensures r.Some? ==> r.value.name in members && EqualsIgnoreCase(r.value.name, s)
  {
    match FindMember(members, s)
    case None => None
    case Some(i) => Some(StartupStrategy(members[i]))
  }

  /** `GetStartupStrategy()`: the named strategy, or `Minimal` when the
      setting is blank or names no member. */
  function GetStartupStrategy(settings: AppSettings, members: seq<string>): (r: StartupStrategy)
    requires IsStrategyEnum(members)
    ensures r.name in members
    ensures IsBlank(settings.startupStrategy) ==> r == Minimal
    ensures (forall i :: 0 <= i < |members| ==> !EqualsIgnoreCase(members[i], settings.startupStrategy))
            ==> r == Minimal
    ensures r == Minimal || EqualsIgnoreCase(r.name, settings.startupStrategy)
    ensures !IsBlank(settings.startupStrategy)
            && (exists i :: 0 <= i < |members| && EqualsIgnoreCase(members[i], settings.startupStrategy))
            ==> EqualsIgnoreCase(r.name, settings.startupStrategy)
  {
    if !IsBlank(settings.startupStrategy) then
      match TryParseStrategy(members, settings.startupStrategy)
      case Some(strategy) => strategy
      case None => Minimal
    else Minimal
  }

  /** `UsesImportStartStrategy()`. */
  predicate UsesImportStartStrategy(settings: AppSettings, members: seq<string>)
    requires IsStrategyEnum(members)
  {
    GetStartupStrategy(settings, members) == Import
  }

  /** No two members differ only in case. */
  predicate CaseDistinct(members: seq<string>) {
    forall i, j :: 0 <= i < j < |members| ==> !EqualsIgnoreCase(members[i], members[j])
  }

  /** For an enum whose names differ other than in case, every member is
      selected by its own name written in any case. */
  lemma StrategyByName(settings: AppSettings, members: seq<string>, k: nat)
    requires IsStrategyEnum(members) && CaseDistinct(members)
    requires k < |members| && !IsBlank(members[k])
    requires EqualsIgnoreCase(settings.startupStrategy, members[k])
    ensures GetStartupStrategy(settings, members) == StartupStrategy(members[k])
  {
    var s := settings.startupStrategy;
    LowerBlank(s, members[k]);
    assert EqualsIgnoreCase(members[k], s);
    var found := FindMember(members, s);
    assert found.Some?;
    var i := found.value;
    assert i <= k;
    if i < k {
      assert EqualsIgnoreCase(members[i], members[k]);
    }
    assert TryParseStrategy(members, s) == Some(StartupStrategy(members[i]));
  }

  /** Strings equal ignoring case are both blank or both not. */
  lemma LowerBlank(a: string, b: string)
    requires EqualsIgnoreCase(a, b)
    ensures IsBlank(a) <==> IsBlank(b)
  {
    forall i | 0 <= i < |a| ensures IsWhiteSpace(a[i]) <==> IsWhiteSpace(b[i]) {
      assert Lower(a)[i] == Lower(b)[i];
    }
  }

  /** The import strategy is used exactly when the setting spells "Import"
      in some case. */
  lemma UsesImportIff(settings: AppSettings, members: seq<string>)
    requires IsStrategyEnum(members) && CaseDistinct(members)
    ensures UsesImportStartStrategy(settings, members)
            <==> EqualsIgnoreCase(settings.startupStrategy, Import.name)
  {
    var k :| 0 <= k < |members| && members[k] == Import.name;
    if EqualsIgnoreCase(settings.startupStrategy, Import.name) {
      assert !IsWhiteSpace(Import.name[0]);
      StrategyByName(settings, members, k);
    }
  }

  /** The default start-up strategy is `Minimal`. */
  lemma DefaultStrategyIsMinimal(members: seq<string>)
    requires IsStrategyEnum(members)
    ensures GetStartupStrategy(DefaultSettings, members) == Minimal
    ensures !UsesImportStartStrategy(DefaultSettings, members)
  {
  }
}

=== FILE: text.dfy ===
/** The .NET string primitives the core relies on: white-space tests,
    ordinal search, lower-casing and trimming. */
module Text {
  import opened Wrappers

  /** `char.IsWhiteSpace`: the characters of the Unicode White_Space property. */
  predicate IsWhiteSpace(c: char) {
    || c == ' '
    || ('\t' <= c <= '\r')
    || c == '\U{85}' || c == '\U{A0}' || c == '\U{1680}'
    || ('\U{2000}' <= c <= '\U{200A}')
    || c == '\U{2028}' || c == '\U{2029}' || c == '\U{202F}' || c == '\U{205F}' || c == '\U{3000}'
  }

  /** `string.IsNullOrWhiteSpace` on a non-null string: empty or only white space. */
  predicate IsBlank(s: string) {
    forall i :: 0 <= i < |s| ==> IsWhiteSpace(s[i])
  }

  /** `string.IsNullOrWhiteSpace` on a nullable string. */
  predicate IsNullOrWhiteSpace(s: Option<string>) {
    s.None? || IsBlank(s.value)
  }

  /** `p` occurs in `s` starting at position `i`. */
  predicate OccursAt(s: string, p: string, i: int) {
    0 <= i && i + |p| <= |s| && s[i..i + |p|] == p
  }

  /** The first occurrence of `p` in `s` at or after `from`, or -1. */
  function IndexFrom(s: string, p: string, from: nat): (r: int)
    requires from <= |s| + 1
    ensures r == -1 || (from <= r && OccursAt(s, p, r))
    ensures forall i :: from <= i && (r == -1 || i < r) ==> !OccursAt(s, p, i)
    decreases |s| + 1 - from
  {
    if from + |p| > |s| then -1
    else if s[from..from + |p|] == p then from
    else IndexFrom(s, p, from + 1)
  }

  /** `string.IndexOf(string)` with ordinal comparison: the first position
      at which `p` occurs in `s`, or -1 when it does not occur. */
  function IndexOf(s: string, p: string): (r: int)
    ensures r == -1 <==> forall i :: !OccursAt(s, p, i)
    ensures r != -1 ==> OccursAt(s, p, r) && forall i :: 0 <= i < r ==> !OccursAt(s, p, i)
  {
    IndexFrom(s, p, 0)
  }

  /** `string.Contains(string)`: ordinal substring test. */
  predicate Contains(s: string, p: string) {
    IndexOf(s, p) != -1
  }

  /** `Contains` holds exactly when the pattern occurs at some position. */
  lemma ContainsIff(s: string, p: string)
    ensures Contains(s, p) <==> exists i :: OccursAt(s, p, i)
  {
  }

  lemma ContainsAt(s: string, p: string, i: int)
    requires OccursAt(s, p, i)
    ensures Contains(s, p)
  {
  }

  /** Containment is transitive: whatever occurs inside an infix of `s`
      occurs in `s`. */
  lemma ContainsTransitive(s: string, q: string, p: string)
    requires Contains(s, q) && Contains(q, p)
    ensures Contains(s, p)
  {
    var i := IndexOf(s, q);
    var j := IndexOf(q, p);
    assert q == s[i..i + |q|];
    forall k | 0 <= k < |p|
      ensures s[i + j..i + j + |p|][k] == p[k]
    {
      assert p[k] == q[j + k] == s[i + j + k];
    }
    assert s[i + j..i + j + |p|] == p;
    ContainsAt(s, p, i + j);
  }

  /** The capitals this model lower-cases: ASCII and Latin-1 capitals. */
  predicate IsUpperChar(c: char) {
    ('A' <= c <= 'Z') || ('\U{C0}' <= c <= '\U{DE}' && c != '\U{D7}')
  }

  /** `char.ToLower` on the letters above; every other character is kept. */
  function LowerChar(c: char): (r: char)
    ensures !IsUpperChar(r)
    ensures !IsUpperChar(c) ==> r == c
  {
    if IsUpperChar(c) then (c as int + 32) as char else c
  }

  /** Every ASCII capital becomes its own small letter. */
  lemma LowerAscii()
    ensures Lower("ABCDEFGHIJKLMNOPQRSTUVWXYZ") == "abcdefghijklmnopqrstuvwxyz"
  {
    var caps := "ABCDEFGHIJKLMNOPQRSTUVWXYZ";
    var small := "abcdefghijklmnopqrstuvwxyz";
    var l := Lower(caps);
    assert |l| == |small|;
    forall i | 0 <= i < |small| ensures l[i] == small[i] {
      assert l[i] == LowerChar(caps[i]);
    }
  }

  /** Every Latin-1 capital becomes its own small letter. */
  lemma LowerLatin1()
    ensures Lower("ÀÁÂÃÄÅÆÇÈÉÊËÌÍÎÏÐÑÒÓÔÕÖØÙÚÛÜÝÞ") == "àáâãäåæçèéêëìíîïðñòóôõöøùúûüýþ"
  {
    var caps := "ÀÁÂÃÄÅÆÇÈÉÊËÌÍÎÏÐÑÒÓÔÕÖØÙÚÛÜÝÞ";
    var small := "àáâãäåæçèéêëìíîïðñòóôõöøùúûüýþ";
    var l := Lower(caps);
    assert |l| == |small|;
    forall i | 0 <= i < |small| ensures l[i] == small[i] {
      assert l[i] == LowerChar(caps[i]);
    }
  }

  /** `string.ToLower`. */
  function Lower(s: string): (r: string)
    ensures |r| == |s|
    ensures forall i :: 0 <= i < |s| ==> r[i] == LowerChar(s[i])
  {
    seq(|s|, i requires 0 <= i < |s| => LowerChar(s[i]))
  }

  /** A string with no capital letter. */
  predicate IsLowerCase(s: string) {
    forall i :: 0 <= i < |s| ==> !IsUpperChar(s[i])
  }

  /** Lower-casing yields a lower-case string, and it changes exactly the
      strings that are not already lower case. */
  lemma LowerIsLowerCase(s: string)
    ensures IsLowerCase(Lower(s))
    ensures IsLowerCase(s) <==> Lower(s) == s
  {
    if Lower(s) == s {
      forall i | 0 <= i < |s| ensures !IsUpperChar(s[i]) {
        assert s[i] == Lower(s)[i];
      }
    }
  }

  /** Lower-casing is idempotent. */
  lemma LowerIdempotent(s: string)
    ensures Lower(Lower(s)) == Lower(s)
  {
    LowerIsLowerCase(s);
    LowerIsLowerCase(Lower(s));
  }

  /** Case-insensitive equality (`StringComparison.OrdinalIgnoreCase`). */
  predicate EqualsIgnoreCase(a: string, b: string) {
    Lower(a) == Lower(b)
  }

  /** `string.TrimEnd(c)`: `s` without its trailing run of `c`. */
  function TrimEnd(s: string, c: char): (r: string)
    ensures r <= s
    ensures |r| == 0 || r[|r| - 1] != c
    ensures forall i :: |r| <= i < |s| ==> s[i] == c
  {
    if |s| > 0 && s[|s| - 1] == c then TrimEnd(s[..|s| - 1], c) else s
  }

  /** The text of `s` before the first `c`, or all of `s` when it holds
      no `c`. */
  function UpTo(s: string, c: char): (r: string)
    ensures r <= s && c !in r
    ensures |r| < |s| ==> s[|r|] == c
    decreases |s|
  {
    if |s| == 0 || s[0] == c then "" else [s[0]] + UpTo(s[1..], c)
  }

  /** `UpTo` stops at the first `c` and nowhere else. */
  lemma {:induction false} UpToFirst(a: string, b: string, c: char)
    requires c !in a && (|b| == 0 || b[0] == c)
    ensures UpTo(a + b, c) == a
    decreases |a|
  {
    if |a| == 0 {
      assert a + b == b;
    } else {
      assert (a + b)[0] == a[0] && (a + b)[1..] == a[1..] + b;
      UpToFirst(a[1..], b, c);
      assert a == [a[0]] + a[1..];
    }
  }

  /** Every character of `a` is a character of `b`. */
  predicate CharsFrom(a: string, b: string) {
    forall ch :: ch in a ==> ch in b
  }
}

=== FILE: trackable.dfy ===
/** `ITrackable` entities and the `TrackableQueryableExtensions` query
    helpers (TASVideos.Data/Entity/BaseEntity.cs). A query is a plain
    sequence; a `DateTime` is its tick count. */
module Trackable {
  import opened Wrappers
  import opened Sequences

  /** An entity with the creation and last-update audit fields of `ITrackable`.
      `row` stands for the entity's own columns. The user names are
      uninitialised reference properties, so they may be null. */
  datatype Trackable<T> = Trackable(
    createTimeStamp: int,
    createUserName: Option<string>,
    lastUpdateTimeStamp: int,
    lastUpdateUserName: Option<string>,
    row: T)

  /** The `CreatedBy` condition: created by the user named `userName`. */
  function ByUser<T>(userName: string): Trackable<T> -> bool {
    (t: Trackable<T>) => t.createUserName == Some(userName)
  }

  /** The `Since` condition: created at or after `target`. */
  function AtOrAfter<T>(target: int): Trackable<T> -> bool {
    (t: Trackable<T>) => t.createTimeStamp >= target
  }

  /** `list.Where(t => t.CreateUserName == userName)`. */
  function CreatedBy<T(==,!new)>(list: seq<Trackable<T>>, userName: string): (r: seq<Trackable<T>>)
    ensures IsSubsequence(r, list)
    ensures forall i :: 0 <= i < |r| ==> r[i].createUserName == Some(userName)
    ensures forall t :: multiset(r)[t] == if t.createUserName == Some(userName) then multiset(list)[t] else 0
  {
    Filter(list, ByUser(userName))
  }

  /** `list.Where(t => t.CreateTimeStamp >= target)`. */
  function Since<T(==,!new)>(list: seq<Trackable<T>>, target: int): (r: seq<Trackable<T>>)
    ensures IsSubsequence(r, list)
    ensures forall i :: 0 <= i < |r| ==> r[i].createTimeStamp >= target
    ensures forall t :: multiset(r)[t] == if t.createTimeStamp >= target then multiset(list)[t] else 0
  {
    Filter(list, AtOrAfter(target))
  }

  /** `list.OrderBy(t => t.CreateTimeStamp)`. */
  function OldestToNewest<T(==)>(list: seq<Trackable<T>>): (r: seq<Trackable<T>>)
    ensures multiset(r) == multiset(list)
    ensures forall i, j :: 0 <= i < j < |r| ==> r[i].createTimeStamp <= r[j].createTimeStamp
  {
    var r := SortByKey(list, (t: Trackable<T>) => t.createTimeStamp);
    assert forall i, j :: 0 <= i < j < |r| ==> r[i].createTimeStamp <= r[j].createTimeStamp by {
      assert SortedByKey(r, (t: Trackable<T>) => t.createTimeStamp);
    }
    r
  }

  /** `list.OrderByDescending(t => t.CreateTimeStamp)`. */
  function ByMostRecent<T(==)>(list: seq<Trackable<T>>): (r: seq<Trackable<T>>)
    ensures multiset(r) == multiset(list)
    ensures forall i, j :: 0 <= i < j < |r| ==> r[i].createTimeStamp >= r[j].createTimeStamp
  {
    var r := SortByKey(list, (t: Trackable<T>) => -t.createTimeStamp);
    assert forall i, j :: 0 <= i < j < |r| ==> r[i].createTimeStamp >= r[j].createTimeStamp by {
      assert SortedByKey(r, (t: Trackable<T>) => -t.createTimeStamp);
    }
    r
  }

  /** The user filter is the unique order-preserving selection of that
      user's entities: any subsequence keeping exactly them is `CreatedBy`. */
  lemma CreatedByIsTheSelection<T(!new)>(list: seq<Trackable<T>>, userName: string, r: seq<Trackable<T>>)
    requires IsSubsequence(r, list)
    requires forall t :: multiset(r)[t] == if t.createUserName == Some(userName) then multiset(list)[t] else 0
    ensures r == CreatedBy(list, userName)
  {
    FilterUnique(list, ByUser(userName), r);
  }

  /** The date filter is the unique order-preserving selection of the
      entities created at or after `target`. */
  lemma SinceIsTheSelection<T(!new)>(list: seq<Trackable<T>>, target: int, r: seq<Trackable<T>>)
    requires IsSubsequence(r, list)
    requires forall t :: multiset(r)[t] == if t.createTimeStamp >= target then multiset(list)[t] else 0
    ensures r == Since(list, target)
  {
    FilterUnique(list, AtOrAfter(target), r);
  }

  /** Applying `CreatedBy` twice with the same user changes nothing. */
  lemma CreatedByIdempotent<T(!new)>(list: seq<Trackable<T>>, userName: string)
    ensures CreatedBy(CreatedBy(list, userName), userName) == CreatedBy(list, userName)
  {
    FilterIdempotent(list, ByUser(userName));
  }

  /** Applying `Since` twice with the same date changes nothing. */
  lemma SinceIdempotent<T(!new)>(list: seq<Trackable<T>>, target: int)
    ensures Since(Since(list, target), target) == Since(list, target)
  {
    FilterIdempotent(list, AtOrAfter(target));
  }

  /** Two date filters amount to one by the later date. */
  lemma SinceSince<T(!new)>(list: seq<Trackable<T>>, a: int, b: int)
    ensures Since(Since(list, a), b) == Since(list, if a < b then b else a)
  {
    FilterFilter(list, AtOrAfter(a), AtOrAfter(b), AtOrAfter(if a < b then b else a));
  }

  /** The user and date filters commute. */
  lemma CreatedBySinceCommute<T(!new)>(list: seq<Trackable<T>>, userName: string, target: int)
    ensures CreatedBy(Since(list, target), userName) == Since(CreatedBy(list, userName), target)
  {
    var both := (t: Trackable<T>) => t.createTimeStamp >= target && t.createUserName == Some(userName);
    FilterFilter(list, AtOrAfter(target), ByUser(userName), both);
    FilterFilter(list, ByUser(userName), AtOrAfter(target), both);
  }

  /** A list already in creation order is returned unchanged by
      `OldestToNewest`; in particular the ordering is idempotent. */
  lemma OldestToNewestOfOrdered<T>(list: seq<Trackable<T>>)
    requires forall i, j :: 0 <= i < j < |list| ==> list[i].createTimeStamp <= list[j].createTimeStamp
    ensures OldestToNewest(list) == list
  {
    SortSortedIsIdentity(list, (t: Trackable<T>) => t.createTimeStamp);
  }

  /** A list already newest-first is returned unchanged by `ByMostRecent`. */
  lemma ByMostRecentOfOrdered<T>(list: seq<Trackable<T>>)
    requires forall i, j :: 0 <= i < j < |list| ==> list[i].createTimeStamp >= list[j].createTimeStamp
    ensures ByMostRecent(list) == list
  {
    SortSortedIsIdentity(list, (t: Trackable<T>) => -t.createTimeStamp);
  }
}

=== FILE: wrappers.dfy ===
/** The optional value used wherever the source has a nullable reference
    (`string?`, `int?`) or an operation that can throw instead of returning. */
module Wrappers {

  datatype Option<+T> = None | Some(value: T)
}

=== FILE: youtube.dfy ===
/** The pure parts of the YouTube synchronisation
    (TASVideos.Core/Services/Youtube/YouTubeSync.cs): recognising a YouTube
    URL, extracting its video id, and building the tags and title sent. */
module YouTube {
  import opened Wrappers
  import opened Text
  import opened Sequences

  /** `SplitWithEmpty(separator)` from the extension library, which is not
      part of this model: any function from a string and a separator to the
      pieces. */
  type Splitter = (string, char) -> seq<string>

  /** What `VideoId` needs of the splitter: no piece contains the separator
      and every piece is made of the input's characters. Splitting that
      keeps, drops or trims empty entries all qualify. */
  ghost predicate LawfulSplit(split: Splitter) {
    forall s, sep, piece :: piece in split(s, sep) ==> sep !in piece && CharsFrom(piece, s)
  }

  /** `string.Split(separator)` keeping empty entries: one lawful splitter. */
  function SplitOrdinal(s: string, sep: char): (r: seq<string>)
    ensures |r| >= 1
    decreases |s|
  {
    if |s| == 0 then [""]
    else
      var rest := SplitOrdinal(s[1..], sep);
      if s[0] == sep then [""] + rest else ExtendFirst(s[0], rest)
  }

  /** Prepends `c` to the first piece. */
  function ExtendFirst(c: char, pieces: seq<string>): (r: seq<string>)
    requires |pieces| > 0
    ensures |r| == |pieces| && r[0] == [c] + pieces[0] && r[1..] == pieces[1..]
  {
    [[c] + pieces[0]] + pieces[1..]
  }

  lemma ExtendFirstAppend(c: char, left: seq<string>, right: seq<string>)
    requires |left| > 0
    ensures ExtendFirst(c, left + right) == ExtendFirst(c, left) + right
  {
    assert (left + right)[0] == left[0];
    assert (left + right)[1..] == left[1..] + right;
  }

  lemma StepAtSeparator(s: string, sep: char)
    requires |s| > 0 && s[0] == sep
    ensures SplitOrdinal(s, sep) == [""] + SplitOrdinal(s[1..], sep)
  {
  }

  lemma StepInPiece(s: string, sep: char)
    requires |s| > 0 && s[0] != sep
    ensures SplitOrdinal(s, sep) == ExtendFirst(s[0], SplitOrdinal(s[1..], sep))
  {
  }

  /** No piece of `SplitOrdinal` holds the separator or a foreign character. */
  lemma {:induction false} SplitOrdinalPieces(s: string, sep: char)
    ensures forall i :: 0 <= i < |SplitOrdinal(s, sep)| ==>
              sep !in SplitOrdinal(s, sep)[i] && CharsFrom(SplitOrdinal(s, sep)[i], s)
    decreases |s|
  {
    if |s| > 0 {
      SplitOrdinalPieces(s[1..], sep);
      var rest := SplitOrdinal(s[1..], sep);
      var r := SplitOrdinal(s, sep);
      forall i | 0 <= i < |r| ensures sep !in r[i] && CharsFrom(r[i], s) {
        if s[0] == sep {
          if i > 0 {
            assert r[i] == rest[i - 1];
          }
        } else if i == 0 {
          assert r[0] == [s[0]] + rest[0];
        } else {
          assert r[i] == rest[i];
        }
      }
    }
  }

  /** The first keep-empty piece is the text before the first separator. */
  lemma {:induction false} FirstPiece(s: string, sep: char)
    ensures SplitOrdinal(s, sep)[0] == UpTo(s, sep)
    decreases |s|
  {
    if |s| > 0 {
      if s[0] == sep {
        StepAtSeparator(s, sep);
      } else {
        StepInPiece(s, sep);
        FirstPiece(s[1..], sep);
      }
    }
  }

  /** `SplitOrdinal` as a splitter. */
  const Ordinal: Splitter := (s, sep) => SplitOrdinal(s, sep)

  lemma SplitOrdinalIsLawful()
    ensures LawfulSplit(Ordinal)
  {
    forall s, sep, piece | piece in SplitOrdinal(s, sep)
      ensures sep !in piece && CharsFrom(piece, s)
    {
      SplitOrdinalPieces(s, sep);
    }
  }

  /** Splitting a string without the separator yields the string itself. */
  lemma {:induction false} SplitOrdinalWhole(s: string, sep: char)
    requires sep !in s
    ensures SplitOrdinal(s, sep) == [s]
    decreases |s|
  {
    if |s| > 0 {
      SplitOrdinalWhole(s[1..], sep);
      assert s == [s[0]] + s[1..];
    }
  }

  /** Splitting at a separator splits the two sides independently. */
  lemma {:induction false} SplitOrdinalAppend(a: string, b: string, sep: char)
    ensures SplitOrdinal(a + [sep] + b, sep) == SplitOrdinal(a, sep) + SplitOrdinal(b, sep)
    decreases |a|
  {
    var s := a + [sep] + b;
    if |a| == 0 {
      assert s[0] == sep && s[1..] == b;
      StepAtSeparator(s, sep);
    } else {
      assert s[0] == a[0] && s[1..] == a[1..] + [sep] + b;
      SplitOrdinalAppend(a[1..], b, sep);
      if a[0] != sep {
        StepInPiece(s, sep);
        StepInPiece(a, sep);
        ExtendFirstAppend(a[0], SplitOrdinal(a[1..], sep), SplitOrdinal(b, sep));
      } else {
        StepAtSeparator(s, sep);
        StepAtSeparator(a, sep);
      }
    }
  }

  const ShortLinkPrefix := "https://youtu.be"

  /** `IsYoutubeUrl`: a non-blank URL naming one of YouTube's hosts. */
  predicate IsYoutubeUrl(url: Option<string>) {
    && !IsNullOrWhiteSpace(url)
    && (Contains(url.value, "youtube.com") || Contains(url.value, "youtu.be"))
  }

  /** Null and blank URLs are never YouTube URLs, and every short link that
      `VideoId` recognises is one. */
  lemma YoutubeUrlRecognition(url: Option<string>)
    ensures IsYoutubeUrl(url) ==> url.Some? && !IsBlank(url.value)
    ensures url.Some? && Contains(url.value, ShortLinkPrefix) ==> IsYoutubeUrl(url)
  {
    if url.Some? && Contains(url.value, ShortLinkPrefix) {
      var s := url.value;
      var i := IndexOf(s, ShortLinkPrefix);
      assert s[i] == ShortLinkPrefix[0];
      ContainsAt(ShortLinkPrefix, "youtu.be", 8);
      ContainsTransitive(s, ShortLinkPrefix, "youtu.be");
    }
  }

  /** `youtubeUrl[(youtubeUrl.IndexOf("v=") + 2)..]`: the text after the
      first "v=", or, when there is none, the URL without its first
      character, because `IndexOf` then returns -1. */
  function AfterVParam(url: string): (r: string)
    requires |url| > 0
    ensures !Contains(url, "v=") ==> r == url[1..]
    ensures Contains(url, "v=") ==>
              exists i :: && OccursAt(url, "v=", i) && r == url[i + 2..]
                          && (forall j :: 0 <= j < i ==> !OccursAt(url, "v=", j))
    ensures CharsFrom(r, url)
  {
    var i := IndexOf(url, "v=");
    url[i + 2..]
  }

  /** `VideoId`: the id in a short link or a watch URL. `None` stands for the
      exception thrown when the splitter returns no pieces (`Last()` or
      `[0]` on an empty sequence). What the id may contain depends on the
      splitter being lawful. */
  function VideoId(url: string, split: Splitter): (r: Option<string>)
    ensures IsBlank(url) ==> r == Some("")
    ensures !IsBlank(url) && !Contains(url, ShortLinkPrefix) && IsBlank(AfterVParam(url))
            ==> r == Some(AfterVParam(url))
    ensures !IsBlank(url) && Contains(url, ShortLinkPrefix)
            ==> (r.None? <==> |split(url, '/')| == 0)
                && (r.Some? ==> r.value == split(url, '/')[|split(url, '/')| - 1])
    ensures !IsBlank(url) && !Contains(url, ShortLinkPrefix) && !IsBlank(AfterVParam(url))
            ==> var beforeAnchor := split(AfterVParam(url), '#');
                && (r.None? <==> |beforeAnchor| == 0 || |split(beforeAnchor[0], '&')| == 0)
                && (r.Some? ==> r.value == TrimEnd(split(beforeAnchor[0], '&')[0], '?'))
    ensures LawfulSplit(split) && r.Some? ==> CharsFrom(r.value, url)
    ensures LawfulSplit(split) && !IsBlank(url) && Contains(url, ShortLinkPrefix) && r.Some?
            ==> '/' !in r.value
    ensures LawfulSplit(split) && !IsBlank(url) && !Contains(url, ShortLinkPrefix)
            && !IsBlank(AfterVParam(url)) && r.Some?
            ==> '#' !in r.value && '&' !in r.value && (|r.value| == 0 || r.value[|r.value| - 1] != '?')
  {
    if IsBlank(url) then Some("")
    else if Contains(url, ShortLinkPrefix) then
      var parts := split(url, '/');
      if |parts| == 0 then None
      else
        assert parts[|parts| - 1] in parts;
        Some(parts[|parts| - 1])
    else
      var candidate := AfterVParam(url);
      if IsBlank(candidate) then Some(candidate)
      else
        var beforeAnchor := split(candidate, '#');
        if |beforeAnchor| == 0 then None
        else
          assert beforeAnchor[0] in beforeAnchor;
          var beforeQuery := split(beforeAnchor[0], '&');
          if |beforeQuery| == 0 then None
          else
            assert beforeQuery[0] in beforeQuery;
            var id := TrimEnd(beforeQuery[0], '?');
            assert forall ch :: ch in id ==> ch in beforeQuery[0] by {
              assert id <= beforeQuery[0];
            }
            Some(id)
  }

  /** A short link yields the text after its last slash. */
  lemma VideoIdOfShortLink(id: string)
    requires '/' !in id
    ensures VideoId(ShortLinkPrefix + "/" + id, Ordinal) == Some(id)
  {
    var url := ShortLinkPrefix + "/" + id;
    assert !IsBlank(url) by {
      assert url[0] == 'h';
    }
    assert Contains(url, ShortLinkPrefix) by {
      assert url[..|ShortLinkPrefix|] == ShortLinkPrefix;
      ContainsAt(url, ShortLinkPrefix, 0);
    }
    var parts := SplitOrdinal(url, '/');
    assert parts[|parts| - 1] == id by {
      assert url == ShortLinkPrefix + ['/'] + id;
      SplitOrdinalAppend(ShortLinkPrefix, id, '/');
      SplitOrdinalWhole(id, '/');
    }
  }

  /** A watch URL yields the value of its `v` parameter, up to the next
      query parameter. */
  lemma VideoIdOfWatchUrl(url: string, id: string, rest: string)
    requires !Contains(url, ShortLinkPrefix)
    requires |url| > 0 && AfterVParam(url) == id + rest
    requires !IsBlank(id) && '&' !in id && '#' !in id && id[|id| - 1] != '?'
    requires '#' !in rest && (|rest| == 0 || rest[0] == '&')
    ensures VideoId(url, Ordinal) == Some(id)
  {
    var candidate := id + rest;
    assert !IsBlank(url) by {
      var k :| 0 <= k < |id| && !IsWhiteSpace(id[k]);
      assert candidate[k] in url;
    }
    assert !IsBlank(candidate) by {
      var k :| 0 <= k < |id| && !IsWhiteSpace(id[k]);
      assert candidate[k] == id[k];
    }
    VideoIdOfAnyWatchUrl(url);
    UpToFirst(candidate, "", '#');
    assert candidate + "" == candidate;
    UpToFirst(id, rest, '&');
  }

  /** With keep-empty splitting, any watch URL yields the text after its
      first "v=", cut at the first '#', then at the first '&', with trailing
      '?' removed. */
  lemma VideoIdOfAnyWatchUrl(url: string)
    requires !IsBlank(url) && !Contains(url, ShortLinkPrefix) && !IsBlank(AfterVParam(url))
    ensures VideoId(url, Ordinal) == Some(TrimEnd(UpTo(UpTo(AfterVParam(url), '#'), '&'), '?'))
  {
    FirstPiece(AfterVParam(url), '#');
    FirstPiece(UpTo(AfterVParam(url), '#'), '&');
  }

  /** The sharp edge: a URL without "v=" loses its first character and the
      remainder is taken for the id. */
  lemma VideoIdWithoutVParam(url: string)
    requires |url| > 1 && !IsBlank(url[1..])
    requires !Contains(url, ShortLinkPrefix) && !Contains(url, "v=")
    requires '#' !in url && '&' !in url
    ensures VideoId(url, Ordinal) == Some(TrimEnd(url[1..], '?'))
  {
    assert !IsBlank(url) by {
      var k :| 0 <= k < |url[1..]| && !IsWhiteSpace(url[1..][k]);
      assert url[k + 1] == url[1..][k];
    }
    assert '#' !in url[1..] && '&' !in url[1..];
    SplitOrdinalWhole(url[1..], '#');
    SplitOrdinalWhole(url[1..], '&');
  }

  /** `YoutubeVideo`: the publication data sent to YouTube; the wiki page
      that feeds the description is not part of this model. */
  datatype YoutubeVideo = YoutubeVideo(
    id: int,
    publicationDate: int,
    url: string,
    title: string,
    systemCode: string,
    authors: seq<string>,
    searchKey: Option<string>,
    obsoletedBy: Option<int>)

  /** `Select(t => t.ToLower())`. */
  function LowerAll(s: seq<string>): (r: seq<string>)
    ensures |r| == |s|
    ensures forall i :: 0 <= i < |s| ==> r[i] == Lower(s[i])
  {
    seq(|s|, i requires 0 <= i < |s| => Lower(s[i]))
  }

  /** The dash-separated pieces of a non-blank search key; none otherwise. */
  function SearchKeyTags(v: YoutubeVideo, split: Splitter): seq<string> {
    if IsNullOrWhiteSpace(v.searchKey) then [] else split(v.searchKey.value, '-')
  }

  /** The tags before lower-casing and de-duplication. */
  function RawTags(v: YoutubeVideo, split: Splitter): seq<string> {
    [v.systemCode] + v.authors + SearchKeyTags(v, split)
  }

  /** The tag facts `Tags` promises, proved of the de-duplicated,
      lower-cased raw tags. */
  lemma TagsFacts(v: YoutubeVideo, split: Splitter)
    ensures var r := Distinct(LowerAll(RawTags(v, split)));
      && (forall i :: 0 <= i < |r| ==> IsLowerCase(r[i]))
      && (forall a :: a in v.authors ==> Lower(a) in r)
      && (!IsNullOrWhiteSpace(v.searchKey)
          ==> forall piece :: piece in split(v.searchKey.value, '-') ==> Lower(piece) in r)
      && (forall t :: t in r ==>
            (|| t == Lower(v.systemCode)
             || t in LowerAll(v.authors)
             || (!IsNullOrWhiteSpace(v.searchKey) && t in LowerAll(split(v.searchKey.value, '-')))))
  {
    RawTagsLowerCase(v, split);
    RawTagsIncluded(v, split);
    RawTagsOrigin(v, split);
  }

  lemma RawTagsLowerCase(v: YoutubeVideo, split: Splitter)
    ensures var r := Distinct(LowerAll(RawTags(v, split)));
      forall i :: 0 <= i < |r| ==> IsLowerCase(r[i])
  {
    var raw := RawTags(v, split);
    var lowered := LowerAll(raw);
    var r := Distinct(lowered);
    forall i | 0 <= i < |r| ensures IsLowerCase(r[i]) {
      assert r[i] in lowered;
      var k :| 0 <= k < |lowered| && lowered[k] == r[i];
      LowerIsLowerCase(raw[k]);
    }
  }

  lemma RawTagsIncluded(v: YoutubeVideo, split: Splitter)
    ensures var r := Distinct(LowerAll(RawTags(v, split)));
      && (forall a :: a in v.authors ==> Lower(a) in r)
      && (!IsNullOrWhiteSpace(v.searchKey)
          ==> forall piece :: piece in split(v.searchKey.value, '-') ==> Lower(piece) in r)
  {
    var lowered := LowerAll(RawTags(v, split));
    var r := Distinct(lowered);
    forall a | a in v.authors ensures Lower(a) in r {
      var k :| 0 <= k < |v.authors| && v.authors[k] == a;
      assert lowered[1 + k] == Lower(a);
    }
    if !IsNullOrWhiteSpace(v.searchKey) {
      var pieces := split(v.searchKey.value, '-');
      forall piece | piece in pieces ensures Lower(piece) in r {
        var k :| 0 <= k < |pieces| && pieces[k] == piece;
        assert lowered[1 + |v.authors| + k] == Lower(piece);
      }
    }
  }

  lemma RawTagsOrigin(v: YoutubeVideo, split: Splitter)
    ensures var r := Distinct(LowerAll(RawTags(v, split)));
      forall t :: t in r ==>
        (|| t == Lower(v.systemCode)
         || t in LowerAll(v.authors)
         || (!IsNullOrWhiteSpace(v.searchKey) && t in LowerAll(split(v.searchKey.value, '-'))))
  {
    var lowered := LowerAll(RawTags(v, split));
    var r := Distinct(lowered);
    forall t | t in r
      ensures || t == Lower(v.systemCode)
              || t in LowerAll(v.authors)
              || (!IsNullOrWhiteSpace(v.searchKey) && t in LowerAll(split(v.searchKey.value, '-')))
    {
      var k :| 0 <= k < |lowered| && lowered[k] == t;
      if 1 <= k < 1 + |v.authors| {
        assert LowerAll(v.authors)[k - 1] == t;
      } else if 1 + |v.authors| <= k {
        assert LowerAll(SearchKeyTags(v, split))[k - 1 - |v.authors|] == t;
      }
    }
  }

  /** `YoutubeVideo.Tags`. */
  function Tags(v: YoutubeVideo, split: Splitter): (r: seq<string>)
    ensures forall i :: 0 <= i < |r| ==> IsLowerCase(r[i])
    ensures NoDuplicates(r)
    ensures |r| > 0 && r[0] == Lower(v.systemCode)
    ensures forall a :: a in v.authors ==> Lower(a) in r
    ensures !IsNullOrWhiteSpace(v.searchKey)
            ==> forall piece :: piece in split(v.searchKey.value, '-') ==> Lower(piece) in r
    ensures forall t :: t in r ==>
              (|| t == Lower(v.systemCode)
               || t in LowerAll(v.authors)
               || (!IsNullOrWhiteSpace(v.searchKey) && t in LowerAll(split(v.searchKey.value, '-'))))
    ensures IsSubsequence(r, LowerAll(RawTags(v, split)))
  {
    TagsFacts(v, split);
    Distinct(LowerAll(RawTags(v, split)))
  }

  /** When the lower-cased tags are already distinct, nothing is dropped
      and their order is kept. */
  lemma TagsOfDistinctTags(v: YoutubeVideo, split: Splitter)
    requires NoDuplicates(LowerAll(RawTags(v, split)))
    ensures Tags(v, split) == LowerAll(RawTags(v, split))
  {
    DistinctOfUnique(LowerAll(RawTags(v, split)));
  }

  /** `BaseTags`. */
  const BaseTags: seq<string> := ["TAS", "TASVideos", "Tool-Assisted", "Video Game"]

  /** No base tag is lower case, and they are pairwise distinct. */
  lemma BaseTagsFacts()
    ensures forall i :: 0 <= i < |BaseTags| ==> !IsLowerCase(BaseTags[i])
    ensures NoDuplicates(BaseTags)
  {
    forall i | 0 <= i < |BaseTags| ensures !IsLowerCase(BaseTags[i]) {
      assert IsUpperChar(BaseTags[i][0]);
    }
  }

  /** `BaseTags.Concat(video.Tags)`: the tags sent with the video. The base
      tags keep their capitals, so none can collide with a video tag. */
  function SnippetTags(v: YoutubeVideo, split: Splitter): (r: seq<string>)
    ensures |r| == |BaseTags| + |Tags(v, split)|
    ensures r[..|BaseTags|] == BaseTags
    ensures r[|BaseTags|..] == Tags(v, split)
    ensures NoDuplicates(r)
  {
    BaseTagsFacts();
    BaseTags + Tags(v, split)
  }

  /** A tag is sent exactly when it is a base tag or the lower-cased
      system code, an author or a piece of a non-blank search key. */
  lemma SnippetTagsMembership(v: YoutubeVideo, split: Splitter, t: string)
    ensures t in SnippetTags(v, split) <==>
              (|| t in BaseTags
               || t == Lower(v.systemCode)
               || t in LowerAll(v.authors)
               || (!IsNullOrWhiteSpace(v.searchKey) && t in LowerAll(split(v.searchKey.value, '-'))))
  {
    var tags := Tags(v, split);
    assert SnippetTags(v, split) == BaseTags + tags;
    if t in LowerAll(v.authors) {
      var k :| 0 <= k < |v.authors| && LowerAll(v.authors)[k] == t;
      assert v.authors[k] in v.authors;
    }
    if !IsNullOrWhiteSpace(v.searchKey) && t in LowerAll(split(v.searchKey.value, '-')) {
      var pieces := split(v.searchKey.value, '-');
      var k :| 0 <= k < |pieces| && LowerAll(pieces)[k] == t;
      assert pieces[k] in pieces;
    }
  }

  const TitlePrefix := "[TAS] "
  const ObsoleteMarker := "[Obsoleted]"

  /** `$"[TAS] {(video.ObsoletedBy.HasValue ? "[Obsoleted]" : "")} {video.Title}"`. */
  function Title(v: YoutubeVideo): (r: string)
    ensures TitlePrefix <= r
    ensures |r| >= |v.title| && r[|r| - |v.title|..] == v.title
    ensures |r| == |TitlePrefix| + (if v.obsoletedBy.Some? then |ObsoleteMarker| else 0) + 1 + |v.title|
  {
    TitlePrefix + (if v.obsoletedBy.Some? then ObsoleteMarker else "") + " " + v.title
  }

  /** Reads a sent title back into the obsolete flag and the video title. */
  function ParseTitle(s: string): Option<(bool, string)> {
    var obsolete := TitlePrefix + ObsoleteMarker + " ";
    var current := TitlePrefix + " ";
    if obsolete <= s then Some((true, s[|obsolete|..]))
    else if current <= s then Some((false, s[|current|..]))
    else None
  }

  /** The title determines both the obsolete flag and the video's own title:
      the marker is present exactly when `ObsoletedBy` has a value, and a
      current movie's title carries two spaces after "[TAS]". */
  lemma TitleRoundTrip(v: YoutubeVideo)
    ensures ParseTitle(Title(v)) == Some((v.obsoletedBy.Some?, v.title))
  {
    var r := Title(v);
    if v.obsoletedBy.None? {
      assert r[6] == ' ';
      assert (TitlePrefix + ObsoleteMarker + " ")[6] == '[';
    }
  }

  /** Containing "[Obsoleted]" does not mean obsolete: a current movie whose
      own title contains the marker has it in the sent title too. */
  lemma MarkerFromOwnTitle(v: YoutubeVideo)
    requires v.obsoletedBy.None? && v.title == ObsoleteMarker
    ensures Contains(Title(v), ObsoleteMarker)
  {
    ContainsAt(Title(v), ObsoleteMarker, 7);
  }
}
